=== FILE: README.md ===
# Code-collaboration client: room session and join validation in Dafny

This project models the client side of a real-time code-collaboration
platform. Participants join a named room and co-edit one shared document.
They see who else is present and who is typing, agree on a language,
choose their own editor keybinding, and can run the code or ask an AI assistant about a selection.

Two parts of the client are modelled:

- **The room page** (`client/src/routes/room/Room.js`). It is a pure
  session state (`Room.Session`) driven by events (`Room.Event`).
  `Room.Step` returns the next state plus the effects the page performs,
  in order: socket messages (`update code`, `typing-start`, `typing-stop`,
  `update language`, `leave room`), the `/execute` and `/ask-ai` requests,
  clearing the stored username, navigation, and notices.
  - The 1500 ms typing timer is a pending flag plus an expiry event.
  - `Room.Run` applies a whole sequence of events.
  - `RoomTraces` proves properties of whole sessions.
  - `TypingUsers` keeps the list of who is typing.
  - `Relay` chooses what the run and assistant panels show.
  - `Watchdog` models the reconnection effect, whose 3000 ms timer is
    likewise an event.
- **The landing page** (`client/src/routes/joinRoom/JoinRoom.js`).
  `JoinRoom.CreateRoom` and `JoinRoom.JoinRoom` are total decision
  functions over the two text fields. A refusal carries only its reason
  and has no other outcome. An acceptance carries the route, the name
  written to session storage and the name passed in the navigation state.

`JsValues` and `JsStrings` give the JavaScript semantics the code relies
on:

- A missing field, and `x || fallback`, where a string is truthy iff it is
  present and non-empty, and an array is always truthy.
- `String.prototype.trim`, with the ECMAScript whitespace and
  line-terminator set.
- `length`, which counts UTF-16 code units. Dafny characters are Unicode
  scalar values, so a character outside the Basic Multilingual Plane counts
  twice.

Inputs the client does not compute are parameters of the model:

- the `uuid` library's `validate` predicate and the `uuidv4()` fresh id;
- the reply bodies of the two HTTP requests, or their failure;
- whether the Ace editor is mounted, and its selected text;
- at watchdog expiry, whether the captured socket reports itself connected.

The page tests each output field's truthiness, so an empty `stdout` falls
through to `stderr` (Room.js:105-107); `Relay.FirstTruthy` models that.

## Model

| member | source | states |
|---|---|---|
| JsStrings.Trim | client/src/routes/joinRoom/JoinRoom.js:15 | the trimmed text has no whitespace at either end, is no longer than the input, and is empty exactly when the input is all whitespace |
| JsStrings.TrimStartDropsWhitespace | client/src/routes/joinRoom/JoinRoom.js:15 | everything trimming removes from the front is whitespace |
| JsStrings.TrimEndDropsWhitespace | client/src/routes/joinRoom/JoinRoom.js:15 | everything trimming removes from the back is whitespace |
| JsStrings.TrimSplit | client/src/routes/joinRoom/JoinRoom.js:20 | every text is its trimmed core between a whitespace prefix and a whitespace suffix |
| JsStrings.TrimUnique | client/src/routes/joinRoom/JoinRoom.js:20 | trimming is determined by its result: any split into whitespace, a core with no whitespace at either end, and whitespace has that core as its trim |
| JsStrings.TrimIdempotent | client/src/routes/joinRoom/JoinRoom.js:25 | trimming an already trimmed name changes nothing |
| JsStrings.TrimAbsorbsPadding | client/src/routes/joinRoom/JoinRoom.js:34 | whitespace added around a text does not change its trim |
| JsStrings.Utf16Length | client/src/routes/joinRoom/JoinRoom.js:20 | the JavaScript length lies between the number of characters and twice it, and is zero only for the empty text |
| JsStrings.Utf16LengthConcat | client/src/routes/joinRoom/JoinRoom.js:20 | the length of a concatenation is the sum of the lengths, so each character contributes independently |
| JsStrings.Utf16LengthOfChar | client/src/routes/joinRoom/JoinRoom.js:20 | a single character counts one code unit inside the Basic Multilingual Plane and two outside it |
| JsStrings.Utf16LengthOfBmp | client/src/routes/joinRoom/JoinRoom.js:20 | a text wholly inside the Basic Multilingual Plane has one code unit per character |
| JsStrings.Utf16LengthCountsAstral | client/src/routes/joinRoom/JoinRoom.js:20 | the length is the number of characters plus the number of characters outside the Basic Multilingual Plane |
| JoinRoom.UsernameRefused | client/src/routes/joinRoom/JoinRoom.js:20-23 | a username is refused exactly when its trimmed form has fewer than two UTF-16 code units; the separate blank test adds nothing |
| JoinRoom.CreateRoom | client/src/routes/joinRoom/JoinRoom.js:12-30 | any non-blank room-id field refuses with the room-id reason whatever the username; only then does a short username refuse; acceptance happens exactly when both checks pass and goes to `/room/` plus the fresh id, storing and passing the trimmed name |
| JoinRoom.JoinRoom | client/src/routes/joinRoom/JoinRoom.js:32-46 | a trimmed room id the validator rejects refuses first; then a short username refuses; acceptance happens exactly when both pass and goes to `/room/` plus the trimmed id, storing and passing the trimmed name |
| JoinRoom.AcceptedNameIsNormalised | client/src/routes/joinRoom/JoinRoom.js:20-45 | whichever button accepts, the stored name is at least two code units long, is its own trim, and equals the name passed to the room |
| JoinRoom.UsernameRefusalIsSharedByBothActions | client/src/routes/joinRoom/JoinRoom.js:15-41 | a too-short username is refused by both buttons, with the username reason once the room-id check has passed |
| JoinRoom.JoinIgnoresPadding | client/src/routes/joinRoom/JoinRoom.js:34-43 | whitespace typed around the room id or the name leaves the Join decision unchanged |
| JoinRoom.OneAstralCharacterIsLongEnough | client/src/routes/joinRoom/JoinRoom.js:20 | a one-character name outside the Basic Multilingual Plane passes the two-character minimum, because length counts code units |
| TypingUsers.Dedup | client/src/routes/room/Room.js:169 | the rebuilt list has no duplicates and holds exactly the elements of its input |
| TypingUsers.DedupKeepsFirstOrder | client/src/routes/room/Room.js:169 | the rebuilt list orders names by their first occurrence in the input, as iteration over a JavaScript `Set` does; with no duplicates and the same elements, this fixes the result |
| TypingUsers.DedupOfDistinct | client/src/routes/room/Room.js:169 | a list without duplicates is rebuilt unchanged |
| TypingUsers.StartTyping | client/src/routes/room/Room.js:168-170 | adding a typist gives a duplicate-free list that contains the name and exactly the earlier names; on a duplicate-free list it is unchanged if the name was there, else the name is appended |
| TypingUsers.Without | client/src/routes/room/Room.js:171-173 | removing a typist leaves no occurrence of the name, keeps every other name's count, is a no-op for an absent name, and keeps a list duplicate-free |
| TypingUsers.WithoutDistributes | client/src/routes/room/Room.js:172 | removal works element by element across concatenation, so the remaining names keep their order |
| TypingUsers.StopUndoesStart | client/src/routes/room/Room.js:168-173 | a stop after a start for the same name equals the stop alone, and restores the list if the name was new |
| Relay.FirstTruthy | client/src/routes/room/Room.js:105-108 | the first non-empty field is shown, and the fallback only when every field is missing or empty |
| Relay.ExecutionOutput | client/src/routes/room/Room.js:104-110 | a failed request shows the fixed error; a reply shows the first non-empty of standard output, standard error and compiler output, else the fixed no-output message; the panel is never blank |
| Relay.StdoutTakesPriority | client/src/routes/room/Room.js:105-107 | non-empty standard output is shown whatever the other fields hold; standard error only when standard output is empty or missing; compiler output only when both are |
| Relay.ThinkingMessage | client/src/routes/room/Room.js:128 | the prompt sits unchanged at offset 23 of a placeholder 27 characters longer than it, so it can be read back |
| Relay.ThinkingFrameIsFixed | client/src/routes/room/Room.js:128 | the 23 characters before the prompt and the 4 after it are the same for every prompt |
| Relay.AiOutput | client/src/routes/room/Room.js:140-143 | a failed request shows the fixed error; a reply shows its response text, or the fixed no-response message when the text is missing or empty |
| Room.Open | client/src/routes/room/Room.js:28-37 | the first render has empty code, user and typing lists, JavaScript as the language, the default keybinding, empty panels, and no timer pending or request loading |
| Room.OnChange | client/src/routes/room/Room.js:42-58 | with a socket, the edit becomes the local code and one `update code` carries the whole text; without one, nothing changes and nothing is sent; with a username, a `typing-start` goes out only when no timer is pending, and the timer is armed afterwards; nothing other than those two messages is ever emitted |
| Room.OnTypingTimerFired | client/src/routes/room/Room.js:53-56 | the expiry sends exactly one `typing-stop` and clears the pending flag, touching nothing else |
| Room.OnLanguageSelected | client/src/routes/room/Room.js:60-66 | with a socket, the chosen language is adopted and broadcast once; without one, nothing happens |
| Room.KeybindingOf | client/src/routes/room/Room.js:68-71 | choosing "default" stores no keybinding, any other option stores itself, and the selector then displays the chosen option |
| Room.SelectedOption | client/src/routes/room/Room.js:221 | the selector always displays some option |
| Room.KeybindingRoundTrip | client/src/routes/room/Room.js:70 | re-choosing the displayed option gives back the stored keybinding |
| Room.OnKeybindingSelected | client/src/routes/room/Room.js:68-71 | only the keybinding changes, to no keybinding for "default" and to the option itself otherwise; nothing is sent, and the selector shows the chosen option |
| Room.OnLeave | client/src/routes/room/Room.js:73-79 | leaving first clears the stored username and last navigates home, with exactly one `leave room` between them when a socket exists and nothing else; the session is left as it was |
| Room.OnCodeBroadcast | client/src/routes/room/Room.js:153 | a received code replaces the local code; a missing or empty one clears it; nothing else changes |
| Room.OnLanguageBroadcast | client/src/routes/room/Room.js:152 | a non-empty received language is adopted; a missing or empty one changes nothing |
| Room.OnClientList | client/src/routes/room/Room.js:151 | a received list replaces the participant list, even when empty; a missing one empties it |
| Room.OnUserTypingStarted | client/src/routes/room/Room.js:168-170 | with a socket, the typing list becomes the earlier typists plus the name, once; on a duplicate-free list it is unchanged if the name was shown, else the name is appended at the end; without a socket nothing changes |
| Room.OnUserTypingStopped | client/src/routes/room/Room.js:171-173 | with a socket, the list becomes `TypingUsers.Without` of the old one: the name is gone and every other name keeps its count and its order; other typists stay distinct; an absent name, or a missing socket, changes nothing |
| Room.OnRunClicked | client/src/routes/room/Room.js:91-103 | a run posts the current language and local code and shows the executing message |
| Room.OnRunFinished | client/src/routes/room/Room.js:104-113 | the run ends and the panel shows the output chosen by priority, or the fixed error on failure |
| Room.OnAiClicked | client/src/routes/room/Room.js:117-128 | no request is posted exactly when the editor is missing or the selection is empty, and then the session is unchanged; a missing editor does nothing at all, an empty selection only raises the "select code first" notice; otherwise exactly one request carries the selection and prompt, and the placeholder is shown |
| Room.OnAiFinished | client/src/routes/room/Room.js:140-146 | the assistant panel shows the response text, the fixed fallback when it is missing or empty, or the fixed error when the request failed; the loading flag is cleared |
| Room.Step | client/src/routes/room/Room.js:23 | no event handler writes the socket, room id or username; under the assumption that the connection context is fixed, they stay as they were |
| Room.StepTyping | client/src/routes/room/Room.js:47-56 | every event emits `typing-start` exactly when it arms the typing timer from idle and `typing-stop` exactly when it disarms it; only edits and expiry move the timer; an edit never disarms it |
| Room.StepCode | client/src/routes/room/Room.js:42-46 | only a local edit sends code, exactly its text and only with a socket; only local edits and code broadcasts change the local code |
| Room.StepKeepsTypingDistinct | client/src/routes/room/Room.js:166-180 | no event makes a name appear twice in the typing list |
| Room.NoTypingInLeave | client/src/routes/room/Room.js:73-79 | leaving sends neither a typing signal nor code |
| RoomTraces.TypingSignalsAlternate | client/src/routes/room/Room.js:47-56 | over any session starting with no timer pending, typing signals strictly alternate start, stop, start, …, and a timer is pending exactly after a start |
| RoomTraces.EditsOnlyArm | client/src/routes/room/Room.js:47-56 | local edits by a named, connected participant never send `typing-stop` and leave a timer pending |
| RoomTraces.BurstStartsOnce | client/src/routes/room/Room.js:47-52 | any burst of edits sends exactly one `typing-start` |
| RoomTraces.BurstSignals | client/src/routes/room/Room.js:47-56 | a burst of edits followed by the expiry sends exactly one start and one stop |
| RoomTraces.BurstThenQuiet | client/src/routes/room/Room.js:42-58 | a burst of edits followed by the expiry sends every text whole and in order, one start and one stop, leaves the last text as the local code, and leaves no timer pending, so the next edit starts again |
| RoomTraces.TimerStopsTyping | client/src/routes/room/Room.js:53-56 | the expiry of a pending timer sends exactly one stop |
| RoomTraces.EditsSentInOrder | client/src/routes/room/Room.js:43-46 | over any session, the code sent is exactly the local edits' texts, in order, with a socket, and nothing without one |
| RoomTraces.LocalCodeIsLastWrite | client/src/routes/room/Room.js:153 | with a socket, the local code after any session is the text of the latest local edit or code broadcast, an empty or missing broadcast counting as the empty text |
| RoomTraces.TypingUsersStayDistinct | client/src/routes/room/Room.js:166-180 | the typing list never shows a name twice over any session |
| RoomTraces.SessionFromOpen | client/src/routes/room/Room.js:28-58 | any session starting from the first render emits alternating typing signals, has a timer pending exactly after an odd number of them, and never shows a typist twice |
| RoomTraces.LeaveKeepsTypingTimer | client/src/routes/room/Room.js:73-79 | leaving does not cancel a pending typing timer: its `typing-stop` still goes out after the leave message and the navigation home |
| Watchdog.Activate | client/src/routes/room/Room.js:183-191 | the effect arms the timer exactly when the connection is down or there is no socket |
| Watchdog.Rerender | client/src/routes/room/Room.js:192 | unchanged dependencies leave a pending timer running; changed ones cancel it and re-run the effect |
| Watchdog.Expire | client/src/routes/room/Room.js:184-189 | the expiry navigates home exactly when a timer was pending and the captured socket is missing or still not connected; no timer is pending afterwards |
| Watchdog.Unmount | client/src/routes/room/Room.js:190 | unmounting cancels the timer |
| Watchdog.Step | client/src/routes/room/Room.js:182-192 | only the expiry of a pending timer navigates, and every event keeps pending timers tied to a disconnected state |
| Watchdog.NoExitWhileConnected | client/src/routes/room/Room.js:182-192 | while every change keeps a connected socket, the page never navigates home |
| Watchdog.AtMostOneExit | client/src/routes/room/Room.js:184-190 | between two dependency changes the page navigates home at most once, and only if a timer was pending |
| Watchdog.LossThenExpiryExits | client/src/routes/room/Room.js:183-188 | from any watch, a change to disconnected dependencies followed by an expiry at which the captured socket is missing or still not connected sends the page home exactly once |
| Watchdog.ReconnectCancels | client/src/routes/room/Room.js:190 | from any valid watch, changing to connected dependencies before expiry cancels any pending timer, so the expiry does nothing, whatever the socket reports |

## Left out

- Rendering, styling, the clipboard copy (Room.js:81-89) and every success toast. Two error toasts matter to the session logic. The "select code first" notice is `Room.Notify(SelectCodeFirst)`. The watchdog's "Connection lost" toast (Room.js:186) always comes with its navigation home, so `Watchdog.Expire` folds both into its navigation flag. A refusal's toast is its reason.
- The socket.io transport and the server. Emitted messages are effects. Nothing is assumed about how the server relays or orders them.
- The HTTP requests and the environment's API URL. A request is an effect. Its outcome is an event that carries the reply body or a failure.
- Real timers and their durations (1500 ms and 3000 ms). Each timer is a pending flag plus an expiry event. The typing timer's cancellation and re-arming collapse into keeping the flag set.
- The `uuid` library. `validate` and the fresh id are parameters, because their behaviour belongs to a library version that is not part of this model.
- The Ace editor, its selection and `generateColor`. The editor's presence and selected text are event inputs.
- The loading flags' effect on button disabling. The flags themselves are modelled (`running`, `aiThinking`).
- Room.Session: a missing username and an empty one are the same value. Only the username's truthiness and its copying into payloads matter.
- Room.Session: non-string payload values (a number sent as code, say) are not modelled. The code, language and client-list fields may be missing or hold a string (an array for the client list).
- Room.Session: typing broadcasts are assumed to carry a username. A `user-typing-start` payload without one would put `undefined` into the typing list (Room.js:168-169), and that case is not modelled.
- Room.Session: the socket, room id and username are assumed fixed for the whole session. The page re-reads them from the connection context on every render (Room.js:23), and the typing timer's callback uses the socket and username captured when it was armed (Room.js:53-56). A socket that appears, disappears or is replaced mid-session is out of scope, and so is a pending `typing-stop` that goes out on an old socket. The watchdog, which depends on the socket changing, is modelled separately in `Watchdog`.
- Room.Step: broadcast events that arrive with no socket change nothing. The source registers its listeners only while a socket exists.
- Watchdog.Rerender: the effect's `navigate` dependency is not modelled, because it is stable across renders.
- Room.Step: the typing timer is not cancelled on leave or unmount. The source does not cancel it either (see `RoomTraces.LeaveKeepsTypingTimer`).

=== FILE: join_room.dfy ===
/** The landing page's two actions, Create Room and Join Room, as total
    decision functions over the two text fields.

    A refusal carries only its reason: the page shows an error and returns
    before writing the stored username or navigating. An acceptance carries
    the three values the page hands on: the route it navigates to, the name
    it writes to session storage, and the name it puts in the navigation
    state. The id generator and the room-id validator of the `uuid` library
    are parameters. */
module JoinRoom {
  import opened JsStrings

  datatype Refusal =
    | RoomIdEntered    // Create clicked while the room-id field holds text
    | InvalidRoomId    // Join with an id the validator rejects
    | InvalidUsername  // trimmed name blank or shorter than two code units

  datatype Decision =
    | Refuse(reason: Refusal)
    | Accept(path: string, storedName: string, stateName: string)

  datatype Action = Create | Join

  const MinUsernameLength: nat := 2
  const RoomRoute := "/room/"

  /** The username check both actions share, as the page writes it:
      blank after trimming, or fewer than two UTF-16 code units. */
  function UsernameRefused(usernameText: string): (refused: bool)
    ensures refused <==> Utf16Length(Trim(usernameText)) < MinUsernameLength
  {
    var name := Trim(usernameText);
    name == "" || Utf16Length(name) < MinUsernameLength
  }

  /** Create Room: refuse while the room-id field holds anything but
      whitespace, then check the username, then open the room named by the
      freshly generated id. */
  function CreateRoom(roomIdText: string, usernameText: string, freshId: string): (d: Decision)
    ensures !AllWhitespace(roomIdText) ==> d == Refuse(RoomIdEntered)
    ensures (AllWhitespace(roomIdText) && Utf16Length(Trim(usernameText)) < 2)
            ==> d == Refuse(InvalidUsername)
    ensures d.Accept? <==> AllWhitespace(roomIdText) && Utf16Length(Trim(usernameText)) >= 2
    ensures d.Accept? ==> d.path == "/room/" + freshId
    ensures d.Accept? ==> d.storedName == d.stateName == Trim(usernameText)
  {
    if Trim(roomIdText) != "" then Refuse(RoomIdEntered)
    else if UsernameRefused(usernameText) then Refuse(InvalidUsername)
    else
      var name := Trim(usernameText);
      Accept(RoomRoute + freshId, name, name)
  }

  /** Join Room: validate the trimmed room id first, then the username,
      then open the room named by the trimmed id. */
  function JoinRoom(roomIdText: string, usernameText: string, validate: string -> bool): (d: Decision)
    ensures !validate(Trim(roomIdText)) ==> d == Refuse(InvalidRoomId)
    ensures (validate(Trim(roomIdText)) && Utf16Length(Trim(usernameText)) < 2)
            ==> d == Refuse(InvalidUsername)
    ensures d.Accept? <==> validate(Trim(roomIdText)) && Utf16Length(Trim(usernameText)) >= 2
    ensures d.Accept? ==> d.path == "/room/" + Trim(roomIdText)
    ensures d.Accept? ==> d.storedName == d.stateName == Trim(usernameText)
  {
    var roomId := Trim(roomIdText);
    if !validate(roomId) then Refuse(InvalidRoomId)
    else if UsernameRefused(usernameText) then Refuse(InvalidUsername)
    else
      var name := Trim(usernameText);
      Accept(RoomRoute + roomId, name, name)
  }

  /** One press of either button. */
  function Submit(action: Action, roomIdText: string, usernameText: string,
                  freshId: string, validate: string -> bool): Decision
  {
    match action
    case Create => CreateRoom(roomIdText, usernameText, freshId)
    case Join => JoinRoom(roomIdText, usernameText, validate)
  }

  /** Whatever either action accepts is a name of at least two code units
      that trimming leaves unchanged, and the same name is both stored and
      passed to the room. */
  lemma AcceptedNameIsNormalised(action: Action, roomIdText: string, usernameText: string,
                                 freshId: string, validate: string -> bool)
    ensures var d := Submit(action, roomIdText, usernameText, freshId, validate);
            d.Accept? ==>
              && Utf16Length(d.storedName) >= MinUsernameLength
              && Trim(d.storedName) == d.storedName
              && d.stateName == d.storedName
  {
    TrimIdempotent(usernameText);
  }

  /** The username check does not depend on the room-id field, and which
      refusal a bad username gets depends only on the room-id check that
      precedes it. */
  lemma UsernameRefusalIsSharedByBothActions(roomIdText: string, usernameText: string,
                                             freshId: string, validate: string -> bool)
    requires Utf16Length(Trim(usernameText)) < MinUsernameLength
    ensures Submit(Create, roomIdText, usernameText, freshId, validate).Refuse?
    ensures Submit(Join, roomIdText, usernameText, freshId, validate).Refuse?
    ensures AllWhitespace(roomIdText) ==>
              Submit(Create, roomIdText, usernameText, freshId, validate) == Refuse(InvalidUsername)
    ensures validate(Trim(roomIdText)) ==>
              Submit(Join, roomIdText, usernameText, freshId, validate) == Refuse(InvalidUsername)
  {
  }

  /** Whitespace typed around the room id or the name changes nothing:
      Join decides exactly as it would on the bare texts. */
  lemma JoinIgnoresPadding(roomIdText: string, usernameText: string, validate: string -> bool,
                           a: string, b: string, c: string, e: string)
    requires AllWhitespace(a) && AllWhitespace(b) && AllWhitespace(c) && AllWhitespace(e)
    ensures JoinRoom(a + roomIdText + b, c + usernameText + e, validate)
            == JoinRoom(roomIdText, usernameText, validate)
  {
    TrimAbsorbsPadding(a, roomIdText, b);
    TrimAbsorbsPadding(c, usernameText, e);
  }

  /** Because `length` counts UTF-16 code units, a name made of one
      character outside the Basic Multilingual Plane is long enough. */
  lemma OneAstralCharacterIsLongEnough(freshId: string)
    ensures CreateRoom("", "\U{1F600}", freshId).Accept?
  {
    var name := "\U{1F600}";
    assert !IsWhitespace(name[0]);
    assert TrimStart(name) == name;
    assert TrimEnd(name) == name;
    assert Utf16Length(name[1..]) == 0;
  }
}

=== FILE: js_strings.dfy ===
/** `String.prototype.trim` and the `length` of a JavaScript string, on
    Dafny strings whose characters are Unicode scalar values.

    The whitespace set is the one ECMA-262 strips in `trim`: the WhiteSpace
    code points (TAB, VT, FF, ZWNBSP and every "Zs" space separator) and the
    LineTerminator code points (LF, CR, LS, PS). */
module JsStrings {

  /** The characters `trim` strips. */
  const WhitespaceChars: set<char> :=
    { '\t', '\U{000B}', '\U{000C}', '\U{FEFF}',                    // WhiteSpace controls and ZWNBSP
      '\n', '\r', '\U{2028}', '\U{2029}',                           // LineTerminator
      ' ', '\U{00A0}', '\U{1680}', '\U{2000}', '\U{2001}', '\U{2002}', // Zs
      '\U{2003}', '\U{2004}', '\U{2005}', '\U{2006}', '\U{2007}', '\U{2008}',
      '\U{2009}', '\U{200A}', '\U{202F}', '\U{205F}', '\U{3000}' }

  predicate IsWhitespace(c: char)
  {
    c in WhitespaceChars
  }

  predicate AllWhitespace(s: string)
  {
    forall i :: 0 <= i < |s| ==> IsWhitespace(s[i])
  }

  /** Neither end of `s` is whitespace: what `trim` leaves behind. */
  predicate IsTrimmed(s: string)
  {
    s == [] || (!IsWhitespace(s[0]) && !IsWhitespace(s[|s| - 1]))
  }

  /** Drops the leading whitespace: the result is a suffix of `s` that
      does not start with whitespace, and what it drops is all whitespace
      (`TrimStartDropsWhitespace`). */
  function TrimStart(s: string): (r: string)
    ensures |r| <= |s| && r == s[|s| - |r|..]
    ensures r == [] || !IsWhitespace(r[0])
    decreases |s|
  {
    if |s| > 0 && IsWhitespace(s[0]) then
      var r := TrimStart(s[1..]);
      assert s[1..][|s| - 1 - |r|..] == s[|s| - |r|..];
      r
    else s
  }

  lemma TrimStartDropsWhitespace(s: string)
    ensures AllWhitespace(s[..|s| - |TrimStart(s)|])
  {
    var k := |s| - |TrimStart(s)|;
    LeadingWhitespace(s);
    forall i | 0 <= i < k ensures IsWhitespace(s[..k][i]) {
      assert s[..k][i] == s[i];
    }
  }

  lemma {:induction false} LeadingWhitespace(s: string)
    ensures forall i :: 0 <= i < |s| - |TrimStart(s)| ==> IsWhitespace(s[i])
    decreases |s|
  {
    if |s| > 0 && IsWhitespace(s[0]) {
      var rest := s[1..];
      LeadingWhitespace(rest);
      assert TrimStart(s) == TrimStart(rest);
      var n := |TrimStart(rest)|;
      forall i | 0 <= i < |s| - n ensures IsWhitespace(s[i]) {
        if i > 0 {
          assert s[i] == rest[i - 1];
        }
      }
    } else {
      assert TrimStart(s) == s;
    }
  }

  /** Drops the trailing whitespace: the result is a prefix of `s` that
      does not end with whitespace, and what it drops is all whitespace
      (`TrimEndDropsWhitespace`). */
  function TrimEnd(s: string): (r: string)
    ensures |r| <= |s| && r == s[..|r|]
    ensures r == [] || !IsWhitespace(r[|r| - 1])
    decreases |s|
  {
    if |s| > 0 && IsWhitespace(s[|s| - 1]) then
      var r := TrimEnd(s[..|s| - 1]);
      assert s[..|s| - 1][..|r|] == s[..|r|];
      r
    else s
  }

  lemma TrimEndDropsWhitespace(s: string)
    ensures AllWhitespace(s[|TrimEnd(s)|..])
  {
    var k := |TrimEnd(s)|;
    TrailingWhitespace(s);
    forall i | 0 <= i < |s| - k ensures IsWhitespace(s[k..][i]) {
      assert s[k..][i] == s[k + i];
    }
  }

  lemma {:induction false} TrailingWhitespace(s: string)
    ensures forall i :: |TrimEnd(s)| <= i < |s| ==> IsWhitespace(s[i])
    decreases |s|
  {
    if |s| > 0 && IsWhitespace(s[|s| - 1]) {
      var rest := s[..|s| - 1];
      TrailingWhitespace(rest);
      var n := |TrimEnd(rest)|;
      assert |TrimEnd(s)| == n;
      forall i | n <= i < |s| - 1 ensures IsWhitespace(s[i]) {
        assert s[i] == rest[i];
      }
    }
  }

  /** `s.trim()`. It is empty exactly when `s` is blank. */
  function Trim(s: string): (r: string)
    ensures IsTrimmed(r)
    ensures |r| <= |s|
    ensures r == [] <==> AllWhitespace(s)
  {
    TrimEmptyIffBlank(s);
    TrimEnd(TrimStart(s))
  }

  lemma TrimEmptyIffBlank(s: string)
    ensures TrimEnd(TrimStart(s)) == [] <==> AllWhitespace(s)
  {
    var t := TrimStart(s);
    var pre := s[..|s| - |t|];
    SplitAt(s, |s| - |t|);
    TrimStartDropsWhitespace(s);
    if TrimEnd(t) == [] {
      TrimEndDropsWhitespace(t);
      assert t[0..] == t;
      AllWhitespaceConcat(pre, t);
    } else {
      assert t[0] == s[|s| - |t|];
      assert !IsWhitespace(s[|s| - |t|]);
    }
  }

  // The next three lemmas are sequence identities Dafny proves on its own;
  // stating them once and calling them keeps the trimming proofs small and
  // stable across solver seeds.

  lemma SplitAt(s: string, k: nat)
    requires k <= |s|
    ensures s == s[..k] + s[k..]
  {
  }

  /** A whitespace prefix in front of a part that does not start with
      whitespace is exactly what `TrimStart` removes. */
  lemma {:induction false} TrimStartSkips(a: string, t: string)
    requires AllWhitespace(a)
    requires t == [] || !IsWhitespace(t[0])
    ensures TrimStart(a + t) == t
    decreases |a|
  {
    if a == [] {
      assert a + t == t;
    } else {
      assert (a + t)[1..] == a[1..] + t;
      TrimStartSkips(a[1..], t);
    }
  }

  /** A whitespace suffix behind a part that does not end with whitespace
      is exactly what `TrimEnd` removes. */
  lemma {:induction false} TrimEndSkips(t: string, b: string)
    requires AllWhitespace(b)
    requires t == [] || !IsWhitespace(t[|t| - 1])
    ensures TrimEnd(t + b) == t
    decreases |b|
  {
    if b == [] {
      assert t + b == t;
    } else {
      assert (t + b)[..|t + b| - 1] == t + b[..|b| - 1];
      TrimEndSkips(t, b[..|b| - 1]);
    }
  }

  /** `trim` is characterised by its result alone: whenever `s` splits into
      whitespace, a trimmed middle and whitespace, the middle is `Trim(s)`. */
  lemma TrimUnique(a: string, m: string, b: string)
    requires AllWhitespace(a) && AllWhitespace(b) && IsTrimmed(m)
    ensures Trim(a + m + b) == m
  {
    if m == [] {
      assert a + m + b == a + b;
      assert AllWhitespace(a + b) by {
        forall i | 0 <= i < |a + b| ensures IsWhitespace((a + b)[i]) {
          if i >= |a| { assert (a + b)[i] == b[i - |a|]; }
        }
      }
    } else {
      assert a + m + b == a + (m + b);
      TrimStartSkips(a, m + b);
      TrimEndSkips(m, b);
    }
  }

  /** Trimming twice is trimming once. */
  lemma TrimIdempotent(s: string)
    ensures Trim(Trim(s)) == Trim(s)
  {
    var m := Trim(s);
    assert [] + m + [] == m;
    TrimUnique([], m, []);
  }

  lemma AllWhitespaceConcat(x: string, y: string)
    requires AllWhitespace(x) && AllWhitespace(y)
    ensures AllWhitespace(x + y)
  {
    forall i | 0 <= i < |x + y| ensures IsWhitespace((x + y)[i]) {
      if i >= |x| { assert (x + y)[i] == y[i - |x|]; }
    }
  }

  /** Every string is its trimmed core between a whitespace prefix and a
      whitespace suffix. */
  lemma TrimSplit(s: string) returns (pre: string, post: string)
    ensures AllWhitespace(pre) && AllWhitespace(post)
    ensures s == pre + Trim(s) + post
  {
    var t := TrimStart(s);
    var m := TrimEnd(t);
    pre := s[..|s| - |t|];
    post := t[|m|..];
    TrimStartDropsWhitespace(s);
    TrimEndDropsWhitespace(t);
    SplitAt(s, |s| - |t|);
    SplitAt(t, |m|);
    Associate(pre, m, post);
  }

  lemma Associate(a: string, b: string, c: string)
    ensures a + (b + c) == a + b + c
  {
  }

  lemma Regroup(a: string, pre: string, m: string, post: string, b: string)
    ensures a + (pre + m + post) + b == (a + pre) + m + (post + b)
  {
  }

  /** Whitespace padded around a string is invisible after `trim`. */
  lemma TrimAbsorbsPadding(a: string, s: string, b: string)
    requires AllWhitespace(a) && AllWhitespace(b)
    ensures Trim(a + s + b) == Trim(s)
  {
    var pre, post := TrimSplit(s);
    var m := Trim(s);
    var x, y := a + pre, post + b;
    AllWhitespaceConcat(a, pre);
    AllWhitespaceConcat(post, b);
    TrimUnique(x, m, y);
    Regroup(a, pre, m, post, b);
  }

  /** Number of UTF-16 code units a scalar value occupies. */
  function CodeUnits(c: char): nat
  {
    if c as int < 0x1_0000 then 1 else 2
  }

  /** `s.length`: JavaScript counts UTF-16 code units, so a character
      outside the Basic Multilingual Plane counts twice. */
  function Utf16Length(s: string): (n: nat)
    ensures |s| <= n <= 2 * |s|
    ensures n == 0 <==> s == []
  {
    if s == [] then 0 else CodeUnits(s[0]) + Utf16Length(s[1..])
  }

  /** The length of a concatenation is the sum of the lengths. */
  lemma {:induction false} Utf16LengthConcat(a: string, b: string)
    ensures Utf16Length(a + b) == Utf16Length(a) + Utf16Length(b)
    decreases |a|
  {
    if a != [] {
      assert (a + b)[1..] == a[1..] + b;
      Utf16LengthConcat(a[1..], b);
    } else {
      assert a + b == b;
    }
  }

  /** Each character contributes its own code units. */
  lemma Utf16LengthOfChar(c: char)
    ensures Utf16Length([c]) == CodeUnits(c)
  {
    assert [c][1..] == [];
  }

  /** A text entirely inside the Basic Multilingual Plane has one code unit
      per character. */
  lemma {:induction false} Utf16LengthOfBmp(s: string)
    requires forall i :: 0 <= i < |s| ==> s[i] as int < 0x1_0000
    ensures Utf16Length(s) == |s|
    decreases |s|
  {
    if s != [] {
      Utf16LengthOfBmp(s[1..]);
    }
  }

  /** Each character outside the Basic Multilingual Plane adds a second
      code unit: the length is the character count plus their number. */
  function Astral(s: string): (n: nat)
    ensures n <= |s|
  {
    if s == [] then 0 else (if s[0] as int < 0x1_0000 then 0 else 1) + Astral(s[1..])
  }

  lemma {:induction false} Utf16LengthCountsAstral(s: string)
    ensures Utf16Length(s) == |s| + Astral(s)
    decreases |s|
  {
    if s != [] {
      Utf16LengthCountsAstral(s[1..]);
    }
  }
}

=== FILE: js_values.dfy ===
/** JavaScript value semantics the client relies on when it reads socket
    payloads and JSON replies: a field may be missing (`undefined` or
    `null`), and `x || fallback` replaces every falsy value. */
module JsValues {

  /** A payload or reply field: `undefined` and `null` are both Absent. */
  datatype Field<+T> = Absent | Present(value: T)

  /** A string field is truthy iff it is present and non-empty. */
  predicate Truthy(f: Field<string>)
  {
    f.Present? && f.value != ""
  }

  /** `f || fallback` for a string field. */
  function StringOr(f: Field<string>, fallback: string): string
  {
    if Truthy(f) then f.value else fallback
  }

  /** `f || fallback` for an array field: an array, even an empty one, is truthy. */
  function ListOr<T>(f: Field<seq<T>>, fallback: seq<T>): seq<T>
  {
    if f.Present? then f.value else fallback
  }
}

=== FILE: relay.dfy ===
/** What the room page shows for its two out-of-band requests: running the
    code (`/execute`) and asking the assistant (`/ask-ai`).

    The HTTP exchange is an input: either the reply's JSON body, or a
    failure (the request or the JSON parse threw). */
module Relay {
  import opened JsValues

  datatype Reply<T> = Replied(body: T) | RequestFailed

  /** The fields of an `/execute` reply the page reads. */
  datatype ExecuteReply = ExecuteReply(stdout: Field<string>, stderr: Field<string>,
                                       compileOutput: Field<string>)

  /** The one field of an `/ask-ai` reply the page reads. */
  datatype AskAiReply = AskAiReply(response: Field<string>)

  const ExecutingMessage := "Executing code..."
  const NoOutputMessage := "Execution finished with no output."
  const ExecuteErrorMessage := "An error occurred. Could not run the code."
  const NoAiResponseMessage := "No response from AI."
  const AiErrorMessage := "An error occurred. Could not get a response from the AI."

  /** The execute reply's fields in the order the page consults them. */
  function OutputFields(reply: ExecuteReply): seq<Field<string>>
  {
    [reply.stdout, reply.stderr, reply.compileOutput]
  }

  /** Reference reading of an `a || b || … || fallback` chain: the first
      truthy field wins, and the fallback is shown when none is truthy. */
  function FirstTruthy(fields: seq<Field<string>>, fallback: string): (shown: string)
    ensures (forall i :: 0 <= i < |fields| ==> !Truthy(fields[i])) ==> shown == fallback
    ensures forall i :: 0 <= i < |fields| && Truthy(fields[i])
                          && (forall j :: 0 <= j < i ==> !Truthy(fields[j]))
                        ==> shown == fields[i].value
    decreases |fields|
  {
    if |fields| == 0 then fallback
    else if Truthy(fields[0]) then fields[0].value
    else FirstTruthy(fields[1..], fallback)
  }

  /** What the output panel shows once `/execute` has answered: the first
      non-empty of standard output, standard error and compiler output,
      else a fixed message; a failed request shows a fixed error. */
  function ExecutionOutput(reply: Reply<ExecuteReply>): (shown: string)
    ensures reply.RequestFailed? ==> shown == ExecuteErrorMessage
    ensures reply.Replied? ==> shown == FirstTruthy(OutputFields(reply.body), NoOutputMessage)
    ensures shown != ""
  {
    match reply
    case RequestFailed => ExecuteErrorMessage
    case Replied(r) =>
      var fields := OutputFields(r);
      assert fields[0] == r.stdout && fields[1] == r.stderr && fields[2] == r.compileOutput;
      if Truthy(r.stdout) then r.stdout.value
      else if Truthy(r.stderr) then r.stderr.value
      else if Truthy(r.compileOutput) then r.compileOutput.value
      else NoOutputMessage
  }

  /** Standard output, when there is any, is shown verbatim whatever the
      other two fields hold; standard error is shown only when standard
      output is empty or missing. */
  lemma StdoutTakesPriority(reply: ExecuteReply)
    ensures Truthy(reply.stdout) ==> ExecutionOutput(Replied(reply)) == reply.stdout.value
    ensures !Truthy(reply.stdout) && Truthy(reply.stderr)
            ==> ExecutionOutput(Replied(reply)) == reply.stderr.value
    ensures !Truthy(reply.stdout) && !Truthy(reply.stderr) && Truthy(reply.compileOutput)
            ==> ExecutionOutput(Replied(reply)) == reply.compileOutput.value
  {
    var fields := OutputFields(reply);
    assert fields[0] == reply.stdout && fields[1] == reply.stderr && fields[2] == reply.compileOutput;
  }

  /** The placeholder shown while the assistant works on `prompt`. */
  function ThinkingMessage(prompt: string): (m: string)
    ensures |m| == |prompt| + 27 && m[23..|m| - 4] == prompt
  {
    "AI is thinking about: \"" + prompt + "\"..."
  }

  /** The text around the prompt is the same for every prompt. */
  lemma ThinkingFrameIsFixed(p: string, q: string)
    ensures ThinkingMessage(p)[..23] == ThinkingMessage(q)[..23]
    ensures ThinkingMessage(p)[|p| + 23..] == ThinkingMessage(q)[|q| + 23..]
  {
  }

  /** What the assistant panel shows once `/ask-ai` has answered. */
  function AiOutput(reply: Reply<AskAiReply>): (shown: string)
    ensures reply.RequestFailed? ==> shown == AiErrorMessage
    ensures reply.Replied? ==> shown == FirstTruthy([reply.body.response], NoAiResponseMessage)
    ensures shown != ""
  {
    match reply
    case RequestFailed => AiErrorMessage
    case Replied(r) => StringOr(r.response, NoAiResponseMessage)
  }
}

=== FILE: room.dfy ===
/** The room page's client session: its local copy of the shared code,
    language, keybinding, participant list and typing list, the typing
    debouncer, and the run / ask-AI panels.

    Each input the page reacts to is an `Event`; `Step` returns the new
    session and the effects the page performs, in order: socket messages it
    emits, HTTP requests it starts, storage and navigation. The 1500 ms
    typing timer is the `typingTimerPending` flag plus the
    `TypingTimerFired` event; re-arming a pending timer leaves the flag set. */
module Room {
  import opened JsValues
  import opened TypingUsers
  import Relay

  const DefaultLanguage := "javascript"
  const DefaultKeybindingOption := "default"

  /** Client-to-server socket messages. */
  datatype Message =
    | UpdateCode(roomId: string, code: string)
    | UpdateLanguage(roomId: string, languageUsed: string)
    | TypingStart(roomId: string, username: string)
    | TypingStop(roomId: string, username: string)
    | LeaveRoom(roomId: string)

  /** Error notices the page raises (as toasts). */
  datatype Notice = SelectCodeFirst

  datatype Effect =
    | Emit(message: Message)
    | PostExecute(language: string, code: string)
    | PostAskAi(code: string, prompt: string)
    | ClearStoredUsername
    | NavigateHome
    | Notify(notice: Notice)

  /** The page's state. `socket`, `roomId` and `username` come from the
      surrounding connection context; the model assumes they stay fixed for
      the whole session (no handler writes them);
      an empty `username` stands for a missing one. */
  datatype Session = Session(
    socket: bool, roomId: string, username: string,
    code: string, language: string, keybinding: Field<string>,
    users: seq<string>, typingUsers: seq<string>, typingTimerPending: bool,
    output: string, running: bool, aiResponse: string, aiThinking: bool)

  /** The state on first render: empty code and lists, JavaScript, the
      default keybinding, and nothing pending or loading. */
  function Open(socket: bool, roomId: string, username: string): (s: Session)
    ensures s.socket == socket && s.roomId == roomId && s.username == username
    ensures !s.typingTimerPending && !s.running && !s.aiThinking
    ensures s.typingUsers == [] && s.users == [] && s.code == ""
    ensures s.language == DefaultLanguage && s.keybinding.Absent?
    ensures s.output == "" && s.aiResponse == ""
  {
    Session(socket, roomId, username, "", DefaultLanguage, Absent, [], [], false, "", false, "", false)
  }

  datatype Event =
    | LocalEdit(text: string)
    | TypingTimerFired
    | LanguageSelected(value: string)
    | KeybindingSelected(value: string)
    | LeaveClicked
    | CodeBroadcast(code: Field<string>)
    | LanguageBroadcast(languageUsed: Field<string>)
    | ClientListBroadcast(userslist: Field<seq<string>>)
    | UserTypingStarted(name: string)
    | UserTypingStopped(name: string)
    | RunClicked
    | RunFinished(execReply: Relay.Reply<Relay.ExecuteReply>)
    | AiClicked(editorMounted: bool, selection: string, prompt: string)
    | AiFinished(aiReply: Relay.Reply<Relay.AskAiReply>)

  datatype StepResult = StepResult(next: Session, effects: seq<Effect>)

  // ---------------------------------------------------------------------
  // Projections of an effect list

  datatype Signal = Start | Stop

  function SignalOf(e: Effect): seq<Signal>
  {
    match e
    case Emit(TypingStart(_, _)) => [Start]
    case Emit(TypingStop(_, _)) => [Stop]
    case _ => []
  }

  function CodeOf(e: Effect): seq<string>
  {
    match e
    case Emit(UpdateCode(_, text)) => [text]
    case _ => []
  }

  /** The typing signals among `effs`, in order. */
  function TypingSignals(effs: seq<Effect>): seq<Signal>
    decreases |effs|
  {
    if effs == [] then [] else SignalOf(effs[0]) + TypingSignals(effs[1..])
  }

  /** The texts carried by the `update code` messages among `effs`, in order. */
  function CodeUpdates(effs: seq<Effect>): seq<string>
    decreases |effs|
  {
    if effs == [] then [] else CodeOf(effs[0]) + CodeUpdates(effs[1..])
  }

  lemma ProjectionsOfOne(a: Effect)
    ensures TypingSignals([a]) == SignalOf(a) && CodeUpdates([a]) == CodeOf(a)
  {
    assert [a][1..] == [];
  }

  lemma ProjectionsOfTwo(a: Effect, b: Effect)
    ensures TypingSignals([a, b]) == SignalOf(a) + SignalOf(b)
    ensures CodeUpdates([a, b]) == CodeOf(a) + CodeOf(b)
  {
    ProjectionsOfOne(a);
    ProjectionsOfOne(b);
    assert [a, b] == [a] + [b];
    ProjectionsDistribute([a], [b]);
  }

  lemma ProjectionsDistribute(a: seq<Effect>, b: seq<Effect>)
    ensures TypingSignals(a + b) == TypingSignals(a) + TypingSignals(b)
    ensures CodeUpdates(a + b) == CodeUpdates(a) + CodeUpdates(b)
  {
    SignalsDistribute(a, b);
    CodesDistribute(a, b);
  }

  lemma {:induction false} SignalsDistribute(a: seq<Effect>, b: seq<Effect>)
    ensures TypingSignals(a + b) == TypingSignals(a) + TypingSignals(b)
    decreases |a|
  {
    if a == [] {
      assert a + b == b;
    } else {
      var ab := a + b;
      assert ab[0] == a[0] && ab[1..] == a[1..] + b;
      SignalsDistribute(a[1..], b);
      calc {
        TypingSignals(ab);
        SignalOf(ab[0]) + TypingSignals(ab[1..]);
        SignalOf(a[0]) + TypingSignals(a[1..] + b);
        SignalOf(a[0]) + (TypingSignals(a[1..]) + TypingSignals(b));
        (SignalOf(a[0]) + TypingSignals(a[1..])) + TypingSignals(b);
        TypingSignals(a) + TypingSignals(b);
      }
    }
  }

  lemma {:induction false} CodesDistribute(a: seq<Effect>, b: seq<Effect>)
    ensures CodeUpdates(a + b) == CodeUpdates(a) + CodeUpdates(b)
    decreases |a|
  {
    if a == [] {
      assert a + b == b;
    } else {
      var ab := a + b;
      assert ab[0] == a[0] && ab[1..] == a[1..] + b;
      CodesDistribute(a[1..], b);
      calc {
        CodeUpdates(ab);
        CodeOf(ab[0]) + CodeUpdates(ab[1..]);
        CodeOf(a[0]) + CodeUpdates(a[1..] + b);
        CodeOf(a[0]) + (CodeUpdates(a[1..]) + CodeUpdates(b));
        (CodeOf(a[0]) + CodeUpdates(a[1..])) + CodeUpdates(b);
        CodeUpdates(a) + CodeUpdates(b);
      }
    }
  }

  // ---------------------------------------------------------------------
  // Local edits and the typing debouncer

  /** The editor's change handler. With a socket, the new text becomes the
      local code and is sent whole in one `update code`; with a username
      too, a `typing-start` goes out only when no typing timer is pending,
      and the timer is (re-)armed either way. */
  function OnChange(s: Session, text: string): (r: StepResult)
    ensures !s.socket ==> r == StepResult(s, [])
    ensures s.socket ==> r.next.code == text && |r.effects| > 0 && r.effects[0] == Emit(UpdateCode(s.roomId, text))
    ensures CodeUpdates(r.effects) == (if s.socket then [text] else [])
    ensures s.socket && s.username != "" ==> r.next.typingTimerPending
    ensures TypingSignals(r.effects)
            == (if s.socket && s.username != "" && !s.typingTimerPending then [Start] else [])
    ensures r.next.(code := s.code, typingTimerPending := s.typingTimerPending) == s
    ensures forall i :: 0 <= i < |r.effects| ==>
              r.effects[i] == Emit(UpdateCode(s.roomId, text)) || r.effects[i] == Emit(TypingStart(s.roomId, s.username))
  {
    if !s.socket then StepResult(s, [])
    else
      var update := Emit(UpdateCode(s.roomId, text));
      var start := Emit(TypingStart(s.roomId, s.username));
      ProjectionsOfOne(update);
      ProjectionsOfTwo(update, start);
      if s.username == "" then StepResult(s.(code := text), [update])
      else if s.typingTimerPending then StepResult(s.(code := text), [update])
      else StepResult(s.(code := text, typingTimerPending := true), [update, start])
  }

  /** The typing timer's callback: one `typing-stop`, and the timer is no
      longer pending. With no timer pending nothing fires. */
  function OnTypingTimerFired(s: Session): (r: StepResult)
    ensures s.typingTimerPending ==>
              r.effects == [Emit(TypingStop(s.roomId, s.username))] && !r.next.typingTimerPending
    ensures !s.typingTimerPending ==> r == StepResult(s, [])
    ensures r.next.(typingTimerPending := s.typingTimerPending) == s
  {
    var stop := Emit(TypingStop(s.roomId, s.username));
    ProjectionsOfOne(stop);
    if s.typingTimerPending then StepResult(s.(typingTimerPending := false), [stop])
    else StepResult(s, [])
  }

  // ---------------------------------------------------------------------
  // Language and keybinding selectors, leaving

  function OnLanguageSelected(s: Session, value: string): (r: StepResult)
    ensures s.socket ==> r.next.language == value
                         && r.effects == [Emit(UpdateLanguage(s.roomId, value))]
    ensures !s.socket ==> r == StepResult(s, [])
    ensures r.next.(language := s.language) == s
  {
    if s.socket then StepResult(s.(language := value), [Emit(UpdateLanguage(s.roomId, value))])
    else StepResult(s, [])
  }

  /** The keybinding chosen in the selector: the "default" option is no
      keybinding handler at all. */
  function KeybindingOf(option: string): (kb: Field<string>)
    ensures kb.Absent? <==> option == DefaultKeybindingOption
    ensures kb.Present? ==> kb.value == option
    ensures option != "" ==> SelectedOption(kb) == option
  {
    if option == DefaultKeybindingOption then Absent else Present(option)
  }

  /** The option the selector displays for a keybinding, `kb || "default"`. */
  function SelectedOption(kb: Field<string>): (option: string)
    ensures option != ""
    ensures Truthy(kb) ==> option == kb.value
    ensures !Truthy(kb) ==> option == DefaultKeybindingOption
  {
    StringOr(kb, DefaultKeybindingOption)
  }

  /** Displaying a keybinding and choosing the displayed option again gives
      back the same keybinding, for every keybinding the selector produces. */
  lemma KeybindingRoundTrip(kb: Field<string>)
    requires kb.Absent? || (kb.value != "" && kb.value != DefaultKeybindingOption)
    ensures KeybindingOf(SelectedOption(kb)) == kb
  {
  }

  function OnKeybindingSelected(s: Session, option: string): (r: StepResult)
    ensures r.effects == []
    ensures r.next.(keybinding := s.keybinding) == s
    ensures r.next.keybinding == KeybindingOf(option)
    ensures option != "" ==> SelectedOption(r.next.keybinding) == option
  {
    StepResult(s.(keybinding := KeybindingOf(option)), [])
  }

  /** Leave: forget the stored username, tell the server when a socket
      exists, and go home. The typing timer is not cancelled. */
  function OnLeave(s: Session): (r: StepResult)
    ensures r.next == s
    ensures |r.effects| >= 2 && r.effects[0] == ClearStoredUsername && r.effects[|r.effects| - 1] == NavigateHome
    ensures Emit(LeaveRoom(s.roomId)) in r.effects <==> s.socket
    ensures |r.effects| == if s.socket then 3 else 2
  {
    var told := if s.socket then [Emit(LeaveRoom(s.roomId))] else [];
    StepResult(s, [ClearStoredUsername] + told + [NavigateHome])
  }

  // ---------------------------------------------------------------------
  // Incoming broadcasts (listened to only while a socket exists)

  /** `on code change`: a missing or empty code clears the local code. */
  function OnCodeBroadcast(s: Session, code: Field<string>): (r: StepResult)
    ensures r.effects == []
    ensures s.socket && Truthy(code) ==> r.next.code == code.value
    ensures s.socket && !Truthy(code) ==> r.next.code == ""
    ensures r.next.(code := s.code) == s
    ensures !s.socket ==> r.next == s
  {
    if s.socket then StepResult(s.(code := StringOr(code, "")), []) else StepResult(s, [])
  }

  /** `on language change`: a missing or empty language is ignored. */
  function OnLanguageBroadcast(s: Session, languageUsed: Field<string>): (r: StepResult)
    ensures r.effects == []
    ensures s.socket && Truthy(languageUsed) ==> r.next.language == languageUsed.value
    ensures !(s.socket && Truthy(languageUsed)) ==> r.next == s
    ensures r.next.(language := s.language) == s
  {
    if s.socket && Truthy(languageUsed) then StepResult(s.(language := languageUsed.value), [])
    else StepResult(s, [])
  }

  /** `updating client list`: the list replaces the local one; a missing
      list empties it. */
  function OnClientList(s: Session, userslist: Field<seq<string>>): (r: StepResult)
    ensures r.effects == []
    ensures s.socket && userslist.Present? ==> r.next.users == userslist.value
    ensures s.socket && userslist.Absent? ==> r.next.users == []
    ensures r.next.(users := s.users) == s
    ensures !s.socket ==> r.next == s
  {
    if s.socket then StepResult(s.(users := ListOr(userslist, [])), []) else StepResult(s, [])
  }

  function OnUserTypingStarted(s: Session, name: string): (r: StepResult)
    ensures r.effects == []
    ensures s.socket ==> name in r.next.typingUsers && NoDuplicates(r.next.typingUsers)
    ensures s.socket ==> forall x :: x in r.next.typingUsers <==> x in s.typingUsers || x == name
    ensures s.socket && NoDuplicates(s.typingUsers) ==>
              r.next.typingUsers == (if name in s.typingUsers then s.typingUsers else s.typingUsers + [name])
    ensures r.next.(typingUsers := s.typingUsers) == s
    ensures !s.socket ==> r.next == s
  {
    if s.socket then StepResult(s.(typingUsers := StartTyping(s.typingUsers, name)), [])
    else StepResult(s, [])
  }

  function OnUserTypingStopped(s: Session, name: string): (r: StepResult)
    ensures r.effects == []
    ensures name !in r.next.typingUsers || !s.socket
    ensures s.socket ==> r.next.typingUsers == Without(s.typingUsers, name)
    ensures forall x :: x != name ==> multiset(r.next.typingUsers)[x] == multiset(s.typingUsers)[x]
    ensures NoDuplicates(s.typingUsers) ==> NoDuplicates(r.next.typingUsers)
    ensures !s.socket ==> r.next == s
    ensures r.next.(typingUsers := s.typingUsers) == s
    ensures name !in s.typingUsers ==> r.next == s
  {
    if s.socket then StepResult(s.(typingUsers := Without(s.typingUsers, name)), [])
    else StepResult(s, [])
  }

  // ---------------------------------------------------------------------
  // Run and ask-AI panels

  /** Run: the request carries the current language and local code. */
  function OnRunClicked(s: Session): (r: StepResult)
    ensures r.effects == [PostExecute(s.language, s.code)]
    ensures r.next.running && r.next.output == Relay.ExecutingMessage
    ensures r.next.(running := s.running, output := s.output) == s
  {
    StepResult(s.(running := true, output := Relay.ExecutingMessage), [PostExecute(s.language, s.code)])
  }

  function OnRunFinished(s: Session, reply: Relay.Reply<Relay.ExecuteReply>): (r: StepResult)
    ensures r.effects == []
    ensures !r.next.running && r.next.output != ""
    ensures reply.Replied? ==>
              r.next.output == Relay.FirstTruthy(Relay.OutputFields(reply.body), Relay.NoOutputMessage)
    ensures reply.RequestFailed? ==> r.next.output == Relay.ExecuteErrorMessage
    ensures r.next.(running := s.running, output := s.output) == s
  {
    StepResult(s.(running := false, output := Relay.ExecutionOutput(reply)), [])
  }

  /** Ask-AI: nothing happens without an editor; an empty selection only
      raises a notice; otherwise the selection and prompt are posted and a
      placeholder is shown. */
  function OnAiClicked(s: Session, editorMounted: bool, selection: string, prompt: string): (r: StepResult)
    ensures (!editorMounted || selection == "") ==> r.next == s
    ensures !editorMounted ==> r.effects == []
    ensures editorMounted && selection == "" ==> r.effects == [Notify(SelectCodeFirst)]
    ensures (forall i :: 0 <= i < |r.effects| ==> !r.effects[i].PostAskAi?)
            <==> (!editorMounted || selection == "")
    ensures editorMounted && selection != "" ==>
              && r.effects == [PostAskAi(selection, prompt)]
              && r.next.aiThinking
              && r.next.aiResponse == Relay.ThinkingMessage(prompt)
              && r.next.(aiThinking := s.aiThinking, aiResponse := s.aiResponse) == s
  {
    if !editorMounted then StepResult(s, [])
    else if selection == "" then StepResult(s, [Notify(SelectCodeFirst)])
    else
      var effs := [PostAskAi(selection, prompt)];
      assert effs[0].PostAskAi?;
      StepResult(s.(aiThinking := true, aiResponse := Relay.ThinkingMessage(prompt)), effs)
  }

  function OnAiFinished(s: Session, reply: Relay.Reply<Relay.AskAiReply>): (r: StepResult)
    ensures r.effects == []
    ensures !r.next.aiThinking && r.next.aiResponse != ""
    ensures reply.Replied? && Truthy(reply.body.response) ==> r.next.aiResponse == reply.body.response.value
    ensures reply.Replied? && !Truthy(reply.body.response) ==> r.next.aiResponse == Relay.NoAiResponseMessage
    ensures reply.RequestFailed? ==> r.next.aiResponse == Relay.AiErrorMessage
    ensures r.next.(aiThinking := s.aiThinking, aiResponse := s.aiResponse) == s
  {
    StepResult(s.(aiThinking := false, aiResponse := Relay.AiOutput(reply)), [])
  }

  // ---------------------------------------------------------------------
  // The session as a whole

  /** One event, dispatched to its handler. No handler writes the socket,
      room id or username, so under the model's assumption of a fixed
      connection context they stay as they were. What each event does to
      the typing signal, the code and the typing list is stated by
      `StepTyping`, `StepCode` and `StepKeepsTypingDistinct`. */
  function Step(s: Session, e: Event): (r: StepResult)
    ensures r.next.socket == s.socket && r.next.roomId == s.roomId && r.next.username == s.username
  {
    match e
    case LocalEdit(text) => OnChange(s, text)
    case TypingTimerFired => OnTypingTimerFired(s)
    case LanguageSelected(value) => OnLanguageSelected(s, value)
    case KeybindingSelected(option) => OnKeybindingSelected(s, option)
    case LeaveClicked => OnLeave(s)
    case CodeBroadcast(code) => OnCodeBroadcast(s, code)
    case LanguageBroadcast(languageUsed) => OnLanguageBroadcast(s, languageUsed)
    case ClientListBroadcast(userslist) => OnClientList(s, userslist)
    case UserTypingStarted(name) => OnUserTypingStarted(s, name)
    case UserTypingStopped(name) => OnUserTypingStopped(s, name)
    case RunClicked => OnRunClicked(s)
    case RunFinished(reply) => OnRunFinished(s, reply)
    case AiClicked(editorMounted, selection, prompt) => OnAiClicked(s, editorMounted, selection, prompt)
    case AiFinished(reply) => OnAiFinished(s, reply)
  }

  /** Typing signals are edge-triggered: an event emits a start exactly
      when it arms the typing timer from idle and a stop exactly when it
      disarms it, and only local edits and the timer's expiry move the
      timer. A local edit by a named, connected participant leaves the
      timer armed, and so does any local edit made while it is armed. */
  lemma StepTyping(s: Session, e: Event)
    ensures TypingSignals(Step(s, e).effects)
            == (if !s.typingTimerPending && Step(s, e).next.typingTimerPending then [Start]
                else if s.typingTimerPending && !Step(s, e).next.typingTimerPending then [Stop]
                else [])
    ensures !(e.LocalEdit? || e.TypingTimerFired?)
            ==> Step(s, e).next.typingTimerPending == s.typingTimerPending
    ensures e.LocalEdit? && (s.typingTimerPending || (s.socket && s.username != ""))
            ==> Step(s, e).next.typingTimerPending
  {
    if e.LeaveClicked? {
      NoTypingInLeave(s);
    }
  }

  /** Only a local edit sends code, exactly its text and only with a socket;
      the local code changes only by a local edit or a code broadcast, and
      takes the written text. */
  lemma StepCode(s: Session, e: Event)
    ensures CodeUpdates(Step(s, e).effects) == (if e.LocalEdit? && s.socket then [e.text] else [])
    ensures !(e.LocalEdit? || e.CodeBroadcast?) ==> Step(s, e).next.code == s.code
    ensures e.LocalEdit? && s.socket ==> Step(s, e).next.code == e.text
    ensures e.CodeBroadcast? && s.socket ==> Step(s, e).next.code == StringOr(e.code, "")
  {
    if e.LeaveClicked? {
      NoTypingInLeave(s);
    }
  }

  /** No event can make a name appear twice in the typing list. */
  lemma StepKeepsTypingDistinct(s: Session, e: Event)
    ensures NoDuplicates(s.typingUsers) ==> NoDuplicates(Step(s, e).next.typingUsers)
  {
  }

  lemma NoTypingInLeave(s: Session)
    ensures TypingSignals(OnLeave(s).effects) == [] && CodeUpdates(OnLeave(s).effects) == []
  {
    var leave := Emit(LeaveRoom(s.roomId));
    ProjectionsOfTwo(ClearStoredUsername, NavigateHome);
    if s.socket {
      ProjectionsOfTwo(ClearStoredUsername, leave);
      ProjectionsOfOne(NavigateHome);
      assert OnLeave(s).effects == [ClearStoredUsername, leave] + [NavigateHome];
      ProjectionsDistribute([ClearStoredUsername, leave], [NavigateHome]);
    } else {
      assert OnLeave(s).effects == [ClearStoredUsername, NavigateHome];
    }
  }

  /** Applies `evs` in order, concatenating their effects. */
  function Run(s: Session, evs: seq<Event>): (r: StepResult)
    ensures r.next.socket == s.socket && r.next.roomId == s.roomId && r.next.username == s.username
    decreases |evs|
  {
    if evs == [] then StepResult(s, [])
    else
      var prior := Run(s, evs[..|evs| - 1]);
      var last := Step(prior.next, evs[|evs| - 1]);
      StepResult(last.next, prior.effects + last.effects)
  }

  lemma RunSnoc(s: Session, evs: seq<Event>, e: Event)
    ensures Run(s, evs + [e])
            == StepResult(Step(Run(s, evs).next, e).next,
                          Run(s, evs).effects + Step(Run(s, evs).next, e).effects)
  {
    assert (evs + [e])[..|evs|] == evs;
  }
}

=== FILE: room_traces.dfy ===
/** Properties of whole sessions: what a sequence of events, applied one
    after the other by `Room.Run`, emits and leaves behind. */
module RoomTraces {
  import opened JsValues
  import opened TypingUsers
  import opened Room

  /** The first `n` signals of start, stop, start, stop, … */
  function Alternation(n: nat): (sig: seq<Signal>)
    ensures |sig| == n
    decreases n
  {
    if n == 0 then [] else Alternation(n - 1) + [if n % 2 == 1 then Start else Stop]
  }

  /** Typing signals are edge-triggered: over any session that begins with
      no typing timer pending, the emitted signals strictly alternate
      starting with a start, and a timer is pending exactly when the last
      signal was a start. */
  lemma {:induction false} TypingSignalsAlternate(s: Session, evs: seq<Event>)
    requires !s.typingTimerPending
    ensures TypingSignals(Run(s, evs).effects) == Alternation(|TypingSignals(Run(s, evs).effects)|)
    ensures Run(s, evs).next.typingTimerPending
            <==> |TypingSignals(Run(s, evs).effects)| % 2 == 1
    decreases |evs|
  {
    if evs != [] {
      var init := evs[..|evs| - 1];
      TypingSignalsAlternate(s, init);
      var p := Run(s, init);
      var q := Step(p.next, evs[|evs| - 1]);
      StepTyping(p.next, evs[|evs| - 1]);
      assert Run(s, evs) == StepResult(q.next, p.effects + q.effects);
      ProjectionsDistribute(p.effects, q.effects);
      var sig := TypingSignals(p.effects);
      var d := TypingSignals(q.effects);
      ParityExtends(p.next.typingTimerPending, q.next.typingTimerPending, |sig|, d);
    }
  }

  /** One step of the alternation: a start after an even number of
      signals, a stop after an odd number, keep the pattern going. */
  lemma ParityExtends(before: bool, after: bool, n: nat, d: seq<Signal>)
    requires before <==> n % 2 == 1
    requires d == (if !before && after then [Start] else if before && !after then [Stop] else [])
    ensures after <==> (n + |d|) % 2 == 1
    ensures Alternation(n) + d == Alternation(n + |d|)
  {
  }

  /** Without a stop, an alternation holds at most its opening start. */
  lemma {:induction false} StopFreeAlternation(n: nat)
    ensures Stop !in Alternation(n) ==> n <= 1
    decreases n
  {
    if n >= 2 {
      StopFreeAlternation(n - 1);
      if n == 2 {
        assert Alternation(2)[1] == Stop;
      } else {
        assert Alternation(n - 1) <= Alternation(n);
      }
    }
  }

  /** One local edit per text. */
  function Edits(texts: seq<string>): (evs: seq<Event>)
    ensures |evs| == |texts|
    ensures forall i :: 0 <= i < |texts| ==> evs[i] == LocalEdit(texts[i])
    decreases |texts|
  {
    if texts == [] then []
    else Edits(texts[..|texts| - 1]) + [LocalEdit(texts[|texts| - 1])]
  }

  predicate AllEdits(evs: seq<Event>)
  {
    forall i :: 0 <= i < |evs| ==> evs[i].LocalEdit?
  }

  /** Local edits by a named, connected participant never stop the typing
      signal: after at least one of them a timer is pending and no stop has
      gone out. */
  lemma {:induction false} EditsOnlyArm(s: Session, evs: seq<Event>)
    requires s.socket && s.username != "" && AllEdits(evs)
    ensures Stop !in TypingSignals(Run(s, evs).effects)
    ensures evs != [] ==> Run(s, evs).next.typingTimerPending
    decreases |evs|
  {
    if evs != [] {
      var init := evs[..|evs| - 1];
      EditsOnlyArm(s, init);
      var p := Run(s, init);
      var q := Step(p.next, evs[|evs| - 1]);
      StepTyping(p.next, evs[|evs| - 1]);
      assert Run(s, evs) == StepResult(q.next, p.effects + q.effects);
      ProjectionsDistribute(p.effects, q.effects);
    }
  }

  /** However long a burst of edits is, it announces typing exactly once. */
  lemma BurstStartsOnce(s: Session, evs: seq<Event>)
    requires s.socket && s.username != "" && !s.typingTimerPending
    requires evs != [] && AllEdits(evs)
    ensures TypingSignals(Run(s, evs).effects) == [Start]
    ensures Run(s, evs).next.typingTimerPending
  {
    EditsOnlyArm(s, evs);
    TypingSignalsAlternate(s, evs);
    LoneStart(TypingSignals(Run(s, evs).effects));
  }

  lemma LoneStart(sig: seq<Signal>)
    requires sig == Alternation(|sig|) && Stop !in sig && |sig| % 2 == 1
    ensures sig == [Start]
  {
    StopFreeAlternation(|sig|);
  }

  /** The quiet period's expiry sends one stop and nothing else. */
  lemma TimerStopsTyping(t: Session)
    requires t.typingTimerPending
    ensures TypingSignals(Step(t, TypingTimerFired).effects) == [Stop]
  {
  }

  lemma SignalsConcat(a: seq<Effect>, b: seq<Effect>, x: seq<Signal>, y: seq<Signal>)
    requires TypingSignals(a) == x && TypingSignals(b) == y
    ensures TypingSignals(a + b) == x + y
  {
    ProjectionsDistribute(a, b);
  }

  /** A burst of edits followed by the expiry yields exactly one start and
      one stop. */
  lemma BurstSignals(s: Session, evs: seq<Event>)
    requires s.socket && s.username != "" && !s.typingTimerPending
    requires evs != [] && AllEdits(evs)
    ensures TypingSignals(Run(s, evs + [TypingTimerFired]).effects) == [Start, Stop]
  {
    BurstStartsOnce(s, evs);
    RunSnoc(s, evs, TypingTimerFired);
    TimerStopsTyping(Run(s, evs).next);
    SignalsConcat(Run(s, evs).effects, Step(Run(s, evs).next, TypingTimerFired).effects,
                  [Start], [Stop]);
  }

  /** A burst of edits followed by the quiet period's expiry yields exactly
      one start and one stop, sends every text whole and in order, and
      leaves no timer pending, so the next edit starts a new burst. */
  lemma BurstThenQuiet(s: Session, texts: seq<string>)
    requires s.socket && s.username != "" && !s.typingTimerPending && |texts| > 0
    ensures TypingSignals(Run(s, Edits(texts) + [TypingTimerFired]).effects) == [Start, Stop]
    ensures CodeUpdates(Run(s, Edits(texts) + [TypingTimerFired]).effects) == texts
    ensures !Run(s, Edits(texts) + [TypingTimerFired]).next.typingTimerPending
    ensures Run(s, Edits(texts) + [TypingTimerFired]).next.code == texts[|texts| - 1]
  {
    var evs := Edits(texts);
    var all := evs + [TypingTimerFired];
    BurstSignals(s, evs);
    TypingSignalsAlternate(s, all);
    EditTextsOfEdits(texts);
    EditsSentInOrder(s, all);
    assert all[..|all| - 1] == evs;
    LocalCodeIsLastWrite(s, all);
  }

  lemma {:induction false} EditTextsOfEdits(texts: seq<string>)
    ensures EditTexts(Edits(texts)) == texts
    decreases |texts|
  {
    if texts != [] {
      var prefix := texts[..|texts| - 1];
      EditTextsOfEdits(prefix);
      assert Edits(texts)[..|texts| - 1] == Edits(prefix);
      assert texts == prefix + [texts[|texts| - 1]];
    }
  }

  /** The texts of the local edits among `evs`, in order. */
  function EditTexts(evs: seq<Event>): seq<string>
    decreases |evs|
  {
    if evs == [] then []
    else
      var last := evs[|evs| - 1];
      EditTexts(evs[..|evs| - 1]) + (if last.LocalEdit? then [last.text] else [])
  }

  /** Every local edit is sent exactly once, whole and in order, when a
      socket exists; without one nothing is sent. Nothing else sends code. */
  lemma {:induction false} EditsSentInOrder(s: Session, evs: seq<Event>)
    ensures CodeUpdates(Run(s, evs).effects) == (if s.socket then EditTexts(evs) else [])
    decreases |evs|
  {
    if evs != [] {
      var init := evs[..|evs| - 1];
      EditsSentInOrder(s, init);
      var p := Run(s, init);
      var q := Step(p.next, evs[|evs| - 1]);
      StepCode(p.next, evs[|evs| - 1]);
      ProjectionsDistribute(p.effects, q.effects);
    }
  }

  /** Reference reading of last-writer-wins: the local code is whatever the
      latest local edit or code broadcast wrote, a missing or empty
      broadcast writing the empty text. */
  function LastCodeWrite(initial: string, evs: seq<Event>): string
    decreases |evs|
  {
    if evs == [] then initial
    else
      match evs[|evs| - 1]
      case LocalEdit(text) => text
      case CodeBroadcast(code) => StringOr(code, "")
      case _ => LastCodeWrite(initial, evs[..|evs| - 1])
  }

  /** With a socket, the local code after any session is the last write. */
  lemma {:induction false} LocalCodeIsLastWrite(s: Session, evs: seq<Event>)
    requires s.socket
    ensures Run(s, evs).next.code == LastCodeWrite(s.code, evs)
    decreases |evs|
  {
    if evs != [] {
      LocalCodeIsLastWrite(s, evs[..|evs| - 1]);
      StepCode(Run(s, evs[..|evs| - 1]).next, evs[|evs| - 1]);
    }
  }

  /** The typing list never shows a name twice. */
  lemma {:induction false} TypingUsersStayDistinct(s: Session, evs: seq<Event>)
    requires NoDuplicates(s.typingUsers)
    ensures NoDuplicates(Run(s, evs).next.typingUsers)
    decreases |evs|
  {
    if evs != [] {
      TypingUsersStayDistinct(s, evs[..|evs| - 1]);
      StepKeepsTypingDistinct(Run(s, evs[..|evs| - 1]).next, evs[|evs| - 1]);
    }
  }

  /** Leaving with a socket tells the server and goes home, and keeps the
      session as it was. */
  lemma LeaveAlone(s: Session)
    requires s.socket
    ensures Run(s, [LeaveClicked])
            == StepResult(s, [ClearStoredUsername, Emit(LeaveRoom(s.roomId)), NavigateHome])
  {
    RunOne(s, LeaveClicked);
    LeaveStep(s);
  }

  lemma RunOne(s: Session, e: Event)
    ensures Run(s, [e]) == Step(s, e)
  {
    RunSnoc(s, [], e);
    assert [] + [e] == [e];
  }

  lemma LeaveStep(s: Session)
    requires s.socket
    ensures Step(s, LeaveClicked)
            == StepResult(s, [ClearStoredUsername, Emit(LeaveRoom(s.roomId)), NavigateHome])
  {
  }

  lemma TimerFires(t: Session)
    requires t.typingTimerPending
    ensures Step(t, TypingTimerFired)
            == StepResult(t.(typingTimerPending := false), [Emit(TypingStop(t.roomId, t.username))])
  {
  }

  /** Leaving does not cancel a pending typing timer: its `typing-stop`
      still goes out after the leave message and the navigation home. */
  lemma LeaveKeepsTypingTimer(s: Session)
    requires s.socket && s.typingTimerPending
    ensures Run(s, [LeaveClicked, TypingTimerFired]).effects
            == [ClearStoredUsername, Emit(LeaveRoom(s.roomId)), NavigateHome,
                Emit(TypingStop(s.roomId, s.username))]
  {
    LeaveAlone(s);
    TimerFires(s);
    RunSnoc(s, [LeaveClicked], TypingTimerFired);
    assert [LeaveClicked] + [TypingTimerFired] == [LeaveClicked, TypingTimerFired];
  }

  /** A session opened on first render meets the starting conditions of
      the whole-session properties: its typing signals alternate and its
      typing list never shows a name twice. */
  lemma SessionFromOpen(socket: bool, roomId: string, username: string, evs: seq<Event>)
    ensures var r := Run(Open(socket, roomId, username), evs);
            && TypingSignals(r.effects) == Alternation(|TypingSignals(r.effects)|)
            && (r.next.typingTimerPending <==> |TypingSignals(r.effects)| % 2 == 1)
            && NoDuplicates(r.next.typingUsers)
  {
    var s := Open(socket, roomId, username);
    TypingSignalsAlternate(s, evs);
    TypingUsersStayDistinct(s, evs);
  }
}

=== FILE: typing_users.dfy ===
/** The list of other participants currently shown as typing, kept by the
    room page from `user-typing-start` and `user-typing-stop` broadcasts.

    A start appends the name and rebuilds the list through a JavaScript
    `Set`, which keeps the first occurrence of every element in order; a
    stop filters every occurrence of the name out. */
module TypingUsers {

  predicate NoDuplicates<T(==)>(s: seq<T>)
  {
    forall i, j :: 0 <= i < j < |s| ==> s[i] != s[j]
  }

  /** `[...new Set(s)]`: the first occurrence of every element, in order. */
  function Dedup(s: seq<string>): (r: seq<string>)
    ensures NoDuplicates(r)
    ensures forall x :: x in r <==> x in s
    decreases |s|
  {
    if |s| == 0 then []
    else
      var init := Dedup(s[..|s| - 1]);
      var last := s[|s| - 1];
      if last in s[..|s| - 1] then init else init + [last]
  }

  /** The position of the first occurrence of `x` in `s`. */
  function FirstIndex(s: seq<string>, x: string): (k: nat)
    requires x in s
    ensures k < |s| && s[k] == x && x !in s[..k]
    decreases |s|
  {
    if s[0] == x then 0
    else
      var k := 1 + FirstIndex(s[1..], x);
      assert s[..k] == [s[0]] + s[1..][..k - 1];
      k
  }

  /** Any occurrence with no earlier occurrence is the first one. */
  lemma FirstIndexUnique(s: seq<string>, x: string, k: nat)
    requires k < |s| && s[k] == x && x !in s[..k]
    ensures FirstIndex(s, x) == k
  {
    var f := FirstIndex(s, x);
    forall i | 0 <= i < k ensures s[i] in s[..k] {
      assert s[..k][i] == s[i];
    }
    forall i | 0 <= i < f ensures s[i] in s[..f] {
      assert s[..f][i] == s[i];
    }
  }

  /** Appending leaves the first occurrence of every earlier element where
      it was. */
  lemma FirstIndexOfPrefix(s: seq<string>, y: string, x: string)
    requires x in s
    ensures FirstIndex(s + [y], x) == FirstIndex(s, x)
  {
    var k := FirstIndex(s, x);
    assert (s + [y])[..k] == s[..k];
    FirstIndexUnique(s + [y], x, k);
  }

  /** `[...new Set(s)]` lists the elements in the order of their first
      occurrence in `s`. Together with `Dedup`'s contract this determines
      the result completely. */
  lemma {:induction false} DedupKeepsFirstOrder(s: seq<string>)
    ensures forall i, j :: 0 <= i < j < |Dedup(s)|
              ==> FirstIndex(s, Dedup(s)[i]) < FirstIndex(s, Dedup(s)[j])
    decreases |s|
  {
    if |s| > 0 {
      var init := s[..|s| - 1];
      var last := s[|s| - 1];
      var d := Dedup(init);
      DedupKeepsFirstOrder(init);
      assert s == init + [last];
      forall x | x in init ensures FirstIndex(s, x) == FirstIndex(init, x) {
        FirstIndexOfPrefix(init, last, x);
      }
      if last !in init {
        FirstIndexUnique(s, last, |s| - 1);
        assert Dedup(s) == d + [last];
      }
    }
  }

  /** A list without duplicates is its own `Set` image. */
  lemma {:induction false} DedupOfDistinct(s: seq<string>)
    ensures NoDuplicates(s) ==> Dedup(s) == s
    decreases |s|
  {
    if |s| > 0 && NoDuplicates(s) {
      var init := s[..|s| - 1];
      DedupOfDistinct(init);
      assert s[|s| - 1] !in init;
      assert init + [s[|s| - 1]] == s;
    }
  }

  /** Handler of `user-typing-start`. */
  function StartTyping(prev: seq<string>, name: string): (r: seq<string>)
    ensures NoDuplicates(r)
    ensures name in r
    ensures forall x :: x in r <==> x in prev || x == name
    ensures NoDuplicates(prev) ==> r == (if name in prev then prev else prev + [name])
  {
    var appended := prev + [name];
    assert appended[..|appended| - 1] == prev;
    DedupOfDistinct(prev);
    Dedup(appended)
  }

  /** `s.filter(u => u !== name)`. */
  function Without(s: seq<string>, name: string): (r: seq<string>)
    ensures name !in r
    ensures forall x :: x != name ==> multiset(r)[x] == multiset(s)[x]
    ensures name !in s ==> r == s
    ensures NoDuplicates(s) ==> NoDuplicates(r)
    decreases |s|
  {
    if |s| == 0 then []
    else
      var rest := Without(s[1..], name);
      assert s == [s[0]] + s[1..];
      if s[0] == name then rest
      else
        assert NoDuplicates(s) ==> s[0] !in s[1..];
        assert NoDuplicates(s) ==> NoDuplicates(s[1..]) by {
          if NoDuplicates(s) {
            forall i, j | 0 <= i < j < |s[1..]| ensures s[1..][i] != s[1..][j] {
              assert s[1..][i] == s[i + 1] && s[1..][j] == s[j + 1];
            }
          }
        }
        [s[0]] + rest
  }

  /** Filtering commutes with concatenation: together with the one-element
      case this determines `Without` completely, so every entry other than
      `name` keeps its relative order. */
  lemma {:induction false} WithoutDistributes(a: seq<string>, b: seq<string>, name: string)
    ensures Without(a + b, name) == Without(a, name) + Without(b, name)
    ensures forall y :: Without([y], name) == (if y == name then [] else [y])
    decreases |a|
  {
    if |a| > 0 {
      assert (a + b)[1..] == a[1..] + b;
      assert (a + b)[0] == a[0];
      WithoutDistributes(a[1..], b, name);
    } else {
      assert a + b == b;
    }
    forall y ensures Without([y], name) == (if y == name then [] else [y]) {
      assert [y][1..] == [];
    }
  }

  /** A stop after a start removes the name again: on a list without
      duplicates, start-then-stop is the same as stop alone, and restores
      the list when the name was not shown before. */
  lemma StopUndoesStart(prev: seq<string>, name: string)
    requires NoDuplicates(prev)
    ensures Without(StartTyping(prev, name), name) == Without(prev, name)
    ensures name !in prev ==> Without(StartTyping(prev, name), name) == prev
  {
    if name !in prev {
      WithoutDistributes(prev, [name], name);
    }
  }
}

=== FILE: watchdog.dfy ===
/** The room page's reconnection watchdog: an effect that depends on the
    connection flag and the socket object. Whenever it runs with the
    connection down or no socket, it arms a three-second timer; the effect's
    cleanup, which runs before the next run and on unmount, cancels that
    timer. When the timer expires it looks again, at the socket it captured,
    and goes home only if that socket is still not connected.

    Time is not modelled: the expiry is an event. The socket object is
    represented by an identity, so that a new socket counts as a change of
    the effect's dependencies; whether the captured socket reports itself
    connected at expiry is an input of the expiry event. */
module Watchdog {
  import opened JsValues

  type SocketId = nat

  /** The effect's dependencies. */
  datatype Deps = Deps(isConnected: bool, socket: Field<SocketId>)

  /** `armed`: a timer is pending; `watched`: the socket its callback
      captured. */
  datatype Watch = Watch(deps: Deps, armed: bool, watched: Field<SocketId>)

  datatype Event =
    | DepsChanged(deps: Deps)
    | TimerExpired(socketConnected: bool)  // the captured socket's `connected` flag at expiry
    | Unmounted

  /** The effect arms a timer exactly when the connection is down or there
      is no socket. */
  predicate NeedsWatch(d: Deps)
  {
    !d.isConnected || d.socket.Absent?
  }

  /** A pending timer was armed by a run whose dependencies needed it and
      captured the current socket. */
  predicate Valid(w: Watch)
  {
    w.armed ==> NeedsWatch(w.deps) && w.watched == w.deps.socket
  }

  /** The effect's run on `deps`, as on the first render. */
  function Activate(deps: Deps): (w: Watch)
    ensures Valid(w)
    ensures w.deps == deps
    ensures w.armed <==> NeedsWatch(deps)
  {
    Watch(deps, NeedsWatch(deps), deps.socket)
  }

  /** A render with `deps`: with the same dependencies the effect is
      skipped and any pending timer keeps running; otherwise the cleanup
      cancels it and the effect runs again. */
  function Rerender(w: Watch, deps: Deps): (w': Watch)
    ensures deps == w.deps ==> w' == w
    ensures deps != w.deps ==> (w'.armed <==> NeedsWatch(deps))
    ensures w'.deps == deps
    ensures Valid(w) ==> Valid(w')
  {
    if deps == w.deps then w else Activate(deps)
  }

  /** The timer's callback: navigates home, with a toast, exactly when a
      timer was pending and the socket it captured is missing or still not
      connected. Either way no timer is pending afterwards. */
  function Expire(w: Watch, socketConnected: bool): (r: (Watch, bool))
    ensures r.1 <==> w.armed && !(w.watched.Present? && socketConnected)
    ensures r.0 == w.(armed := false)
  {
    var goHome := w.armed && !(w.watched.Present? && socketConnected);
    (w.(armed := false), goHome)
  }

  /** Unmounting runs the cleanup. */
  function Unmount(w: Watch): (w': Watch)
    ensures !w'.armed && w'.deps == w.deps
  {
    w.(armed := false)
  }

  /** One event; the flag says whether it navigated home. */
  function Step(w: Watch, e: Event): (r: (Watch, bool))
    ensures r.1 ==> e.TimerExpired? && w.armed
    ensures Valid(w) ==> Valid(r.0)
  {
    match e
    case DepsChanged(deps) => (Rerender(w, deps), false)
    case TimerExpired(socketConnected) => Expire(w, socketConnected)
    case Unmounted => (Unmount(w), false)
  }

  /** The events applied in order: the final watch and the number of times
      the page navigated home. */
  function Replay(w: Watch, evs: seq<Event>): (r: (Watch, nat))
    ensures Valid(w) ==> Valid(r.0)
    decreases |evs|
  {
    if evs == [] then (w, 0)
    else
      var prior := Replay(w, evs[..|evs| - 1]);
      var last := Step(prior.0, evs[|evs| - 1]);
      (last.0, prior.1 + (if last.1 then 1 else 0))
  }

  /** While every dependency change keeps a connected socket, a watch that
      starts with no pending timer never navigates. */
  predicate StaysConnected(evs: seq<Event>)
  {
    forall i :: 0 <= i < |evs| && evs[i].DepsChanged? ==> !NeedsWatch(evs[i].deps)
  }

  lemma {:induction false} NoExitWhileConnected(w: Watch, evs: seq<Event>)
    requires !w.armed && StaysConnected(evs)
    ensures Replay(w, evs).1 == 0
    ensures !Replay(w, evs).0.armed
    decreases |evs|
  {
    if evs != [] {
      var init := evs[..|evs| - 1];
      assert StaysConnected(init) by {
        forall i | 0 <= i < |init| && init[i].DepsChanged? ensures !NeedsWatch(init[i].deps) {
          assert init[i] == evs[i];
        }
      }
      NoExitWhileConnected(w, init);
    }
  }

  /** Between two changes of the dependencies the page navigates home at
      most once: only an armed timer can fire, and firing disarms it. */
  predicate NoDepsChange(evs: seq<Event>)
  {
    forall i :: 0 <= i < |evs| ==> !evs[i].DepsChanged?
  }

  lemma {:induction false} AtMostOneExit(w: Watch, evs: seq<Event>)
    requires NoDepsChange(evs)
    ensures Replay(w, evs).1 <= (if w.armed then 1 else 0)
    ensures Replay(w, evs).1 == 1 ==> !Replay(w, evs).0.armed
    ensures !w.armed ==> !Replay(w, evs).0.armed
    decreases |evs|
  {
    if evs != [] {
      var init := evs[..|evs| - 1];
      assert NoDepsChange(init) by {
        forall i | 0 <= i < |init| ensures !init[i].DepsChanged? {
          assert init[i] == evs[i];
        }
      }
      AtMostOneExit(w, init);
    }
  }

  /** Losing the connection and staying disconnected until the timer
      expires sends the page home exactly once, from any watch: the change
      re-runs the effect, which arms a timer on the captured socket. */
  lemma LossThenExpiryExits(w: Watch, deps: Deps, socketConnected: bool)
    requires NeedsWatch(deps) && deps != w.deps
    requires deps.socket.Absent? || !socketConnected
    ensures Replay(w, [DepsChanged(deps), TimerExpired(socketConnected)]).1 == 1
  {
    var a := DepsChanged(deps);
    assert [a][..0] == [];
    assert Replay(w, [a]) == (Activate(deps), 0);
    assert [a, TimerExpired(socketConnected)][..1] == [a];
  }

  /** Reconnecting before the timer expires cancels it: from any valid
      watch, the expiry that follows a change to connected dependencies
      does nothing, whatever the socket reports. */
  lemma ReconnectCancels(w: Watch, deps: Deps, socketConnected: bool)
    requires Valid(w) && !NeedsWatch(deps)
    ensures Replay(w, [DepsChanged(deps), TimerExpired(socketConnected)]).1 == 0
  {
    var a := DepsChanged(deps);
    assert [a][..0] == [];
    assert Replay(w, [a]) == (Rerender(w, deps), 0);
    assert [a, TimerExpired(socketConnected)][..1] == [a];
  }
}
